=== FILE: README.md ===
# TornadoVM device execution engine — a Dafny model

This project models three sequential pieces of TornadoVM's device drivers and
proves properties of them:

1. **The pinned staging-area pool of the PTX driver** (`StagingPool`,
   `staging_pool.dfy`) and **how its transfers and stream teardown use it**
   (`PTXStream`, `ptx_stream.dfy`). The source has a global singly linked list
   rooted at `head`, meant to hold every pinned region
   (`PTXStream.cpp:36`), which in fact only ever holds the first one handed
   out, and a global FIFO (`front`/`rear`) of the regions no longer in use. The model keeps the records in an arena
   (`areas`: address ↦ length, whether the pinned memory is allocated, `next`
   link), the FIFO as a sequence of addresses, the set of areas lent to a
   transfer (`inFlight`), the set of those whose `set_to_unused` stream
   callback is registered (`callbacks`), the `head` pointer, and the next
   unused address. Every `cuMemAllocHost`, `cuMemFreeHost` and
   `cuStreamAddCallback` call on the acquisition and transfer paths is an
   abstract outcome (`CudaOutcome`) that succeeds or fails; the firing of a stream callback is an explicit step.
   The central invariant is single ownership (`Valid`): an area is queued at
   most once, never both queued and lent out, and every queued or lent area is
   backed by pinned memory.
2. **The dispatch decisions of the OpenCL kernel scheduler**
   (`OCLKernelScheduler`, `kernel_scheduler.dfy`): whether `submit` computes
   global and local work or adopts the user's `WorkerGrid`, when an illegal
   user local size becomes null, which geometry and local size reach
   `enqueueNDRangeKernel`, and how the profiler timers change. The abstract
   `calculateGlobalWork`/`calculateLocalWork`, OCLGridInfo's
   `checkGridDimensions`, the enqueue call and an event's execution time are
   function-valued parameters. Nothing is assumed about their results, except
   that a calculator may only replace the metadata's geometry.
3. **The memory-space → base-register mapping** of the OpenCL Graal backend
   (`OCLMemorySpace`, `memory_space.dfy`). Java compares spaces by reference,
   so each space carries an identity separate from its name.

`Wrappers` (`wrappers.dfy`) holds `Option` (NULL/null is `None`) and `Result`.

Where the code does not do what its own comments say, the model follows the
code:

- The comments at `PTXStream.cpp:36` and `:181` say the `head` list keeps, and
  `free_staging_area_list` frees, all the allocated pinned memory. The code
  never links a new area into that list (`next` is only ever set to NULL at
  `:137`, and `head` is set only while NULL at `:167`), so teardown frees only
  the first area ever handed out (see Findings).

Notes on the code:

- `get_first_free_staging_area` (`:162-170`) only looks at the front of the
  queue, and grows that region when it is too short; it never searches the
  queue for a region of sufficient capacity.
- Both host-to-device variants return their area only through the
  `set_to_unused` stream callback (`:414`, `:443`). They differ only in when
  `stream_from_array` runs (`:401` against `:434`), which does not touch the
  pool, so they change the pool identically (`HostToDeviceVariantsAgree`).

## Model

| member | source | states |
|---|---|---|
| StagingPool.EmptyPoolIsValid | drivers/ptx-jni/src/main/cpp/source/PTXStream.cpp:58-72 | With every global pointer NULL the single-owner invariant holds. |
| StagingPool.Enqueue | drivers/ptx-jni/src/main/cpp/source/PTXStream.cpp:77-92 | The region lands at the rear, everything queued before stays in front of it in order, and no other part of the pool changes. |
| StagingPool.Dequeue | drivers/ptx-jni/src/main/cpp/source/PTXStream.cpp:97-107 | NULL and no change exactly when the queue is empty; otherwise the front region is returned and only it is removed. |
| StagingPool.FreeQueue | drivers/ptx-jni/src/main/cpp/source/PTXStream.cpp:112-121 | Popping nodes until `front` is NULL leaves the queue empty and the rest of the pool unchanged. |
| StagingPool.DrainQueueIsQueueOrder | drivers/ptx-jni/src/main/cpp/source/PTXStream.cpp:97-107 | Repeated dequeues return the queue's contents front first, each exactly once. |
| StagingPool.EnqueueAllAppends | drivers/ptx-jni/src/main/cpp/source/PTXStream.cpp:77-92 | Enqueuing a batch appends it, in order, behind the regions already queued. |
| StagingPool.FreeRegionsAreReusedInFifoOrder | drivers/ptx-jni/src/main/cpp/source/PTXStream.cpp:77-107 | Free regions are handed back first-in, first-out: earlier queued regions, then the new ones in enqueue order. |
| StagingPool.CheckOrInitStagingArea | drivers/ptx-jni/src/main/cpp/source/PTXStream.cpp:126-157 | NULL input: a new unlinked area of exactly `size` bytes, or NULL and no change when allocation fails. Short area: grown to exactly `size`, or NULL on a failed free (area untouched) or failed alloc (area left without pinned memory). Long enough: returned untouched. Every success has length at least `size`; no capacity shrinks; no other record changes. |
| StagingPool.GetFirstFreeStagingArea | drivers/ptx-jni/src/main/cpp/source/PTXStream.cpp:162-170 | A queued area is always taken first and no new area is made then; a long-enough front area is reused with the arena unchanged; only an empty queue creates an area, of exactly `size` bytes and never linked, and a failed creation leaves the pool unchanged; `head` changes only when it was NULL; the result is lent out; capacity never shrinks. |
| StagingPool.TakingTheFrontKeepsSingleOwner | drivers/ptx-jni/src/main/cpp/source/PTXStream.cpp:162-170 | Taking the queue front (or a brand-new area when the queue is empty), possibly rewriting only that record, and lending it out keeps the single-owner invariant. |
| StagingPool.GetFirstFreeStagingAreaKeepsSingleOwner | drivers/ptx-jni/src/main/cpp/source/PTXStream.cpp:162-170 | The area handed out was lent to no other transfer, is not left in the queue and is backed by pinned memory, and the pool stays valid. |
| StagingPool.SetToUnused | drivers/ptx-jni/src/main/cpp/source/PTXStream.cpp:175-178 | The area goes to the rear of the free queue and its loan ends; records and `head` are untouched. |
| StagingPool.SetToUnusedKeepsSingleOwner | drivers/ptx-jni/src/main/cpp/source/PTXStream.cpp:175-178 | Returning a lent area keeps the single-owner invariant. |
| StagingPool.FreeStagingAreaList | drivers/ptx-jni/src/main/cpp/source/PTXStream.cpp:183-196 | Walking the list leaves `head` NULL and frees exactly the `head` record, since no record is ever linked; nothing else changes. |
| PTXStream.SizeT | drivers/ptx-jni/src/main/cpp/source/PTXStream.cpp:214 | A Java `long` length becomes a `size_t` modulo 2^64: unchanged when non-negative, plus 2^64 when negative. |
| PTXStream.TransferFromDeviceToHostBlock | drivers/ptx-jni/src/main/cpp/source/PTXStream.cpp:209-228 | NULL staging area exactly when an allocation on the create or grow path fails; otherwise the area is long enough, is the old queue front when there was one, and is back at the rear of the queue when the call returns, with no loan left open. Every other record is unchanged, no capacity shrinks, and `head` is assigned only while NULL. |
| PTXStream.StageHostToDevice | drivers/ptx-jni/src/main/cpp/source/PTXStream.cpp:403-414 | NULL exactly when an allocation fails; otherwise the area is long enough, is the old queue front when there was one, stays lent out and out of the queue, and has a pending callback exactly when `cuStreamAddCallback` succeeded. Every other record is unchanged, no capacity shrinks, and `head` is assigned only while NULL. |
| PTXStream.TransferFromHostToDeviceBlocking | drivers/ptx-jni/src/main/cpp/source/PTXStream.cpp:392-418 | The area is still lent out when the call returns; the queue only lost its front. |
| PTXStream.TransferFromHostToDeviceAsync | drivers/ptx-jni/src/main/cpp/source/PTXStream.cpp:420-447 | The area is still lent out when the call returns; the queue only lost its front. |
| PTXStream.HostToDeviceVariantsAgree | drivers/ptx-jni/src/main/cpp/source/PTXStream.cpp:392-447 | Both host-to-device variants change the pool identically. |
| PTXStream.StreamCallback | drivers/ptx-jni/src/main/cpp/source/PTXStream.cpp:443 | A registered callback firing puts the area at the rear of the queue and ends its loan and callback; other loans, callbacks, records and `head` are unchanged. |
| PTXStream.DeviceToHostBlockKeepsSingleOwner | drivers/ptx-jni/src/main/cpp/source/PTXStream.cpp:209-228 | The blocking device-to-host transfer keeps the single-owner invariant. |
| PTXStream.HostToDeviceKeepsSingleOwner | drivers/ptx-jni/src/main/cpp/source/PTXStream.cpp:392-447 | A host-to-device transfer keeps the single-owner invariant; the area it lends out was lent to no other transfer and is not in the queue. |
| PTXStream.StreamCallbackKeepsSingleOwner | drivers/ptx-jni/src/main/cpp/source/PTXStream.cpp:414 | A fired callback keeps the single-owner invariant. |
| PTXStream.DestroyStream | drivers/ptx-jni/src/main/cpp/source/PTXStream.cpp:665-676 | Teardown leaves the free queue empty and `head` NULL, frees only the `head` record, and leaves loans and pending callbacks as they were. |
| PTXStream.DestroyStreamLeaksAllButHead | drivers/ptx-jni/src/main/cpp/source/PTXStream.cpp:183-196 | Every area other than `head` survives teardown with its memory, reachable from neither the queue nor the list. |
| PTXStream.TeardownLeakWitness | drivers/ptx-jni/src/main/cpp/source/PTXStream.cpp:162-170 | Two writes before either callback, both callbacks, then teardown: area 1 stays pinned and unreachable. |
| PTXStream.TeardownFreesLentHeadWitness | drivers/ptx-jni/src/main/cpp/source/PTXStream.cpp:665-676 | One write with its callback pending, then teardown: the lent area is freed, the invariant breaks, and the later callback queues a freed record. |
| PTXStream.DestroyStreamReleasingIdle | drivers/ptx-jni/src/main/cpp/source/PTXStream.cpp:665-676 | Corrected teardown: queue empty, `head` NULL, an area freed exactly when it is not lent out, surviving records unchanged. |
| PTXStream.DestroyStreamReleasingIdleKeepsSingleOwner | drivers/ptx-jni/src/main/cpp/source/PTXStream.cpp:665-676 | The corrected teardown keeps the single-owner invariant, so later callbacks queue only live records. |
| PTXStream.Step | drivers/ptx-jni/src/main/cpp/source/PTXStream.cpp:209-447 | Any transfer, registered callback or corrected teardown keeps the single-owner invariant. |
| PTXStream.Run | drivers/ptx-jni/src/main/cpp/source/PTXStream.cpp:209-447 | Any sequence of transfers, registered callbacks and teardowns keeps the single-owner invariant, with the corrected teardown `DestroyStreamReleasingIdle` in place of the program's own. |
| PTXStream.ReuseGrowsReleasedArea | drivers/ptx-jni/src/main/cpp/source/PTXStream.cpp:162-170 | A 1024-byte write whose callback fired, then a 2048-byte write: one area, grown to 2048 bytes, no second allocation. |
| PTXStream.FirstWriteCreatesArea | drivers/ptx-jni/src/main/cpp/source/PTXStream.cpp:420-447 | A 1024-byte write on an empty pool creates area 0 of 1024 bytes, makes it `head`, and leaves it lent with its callback pending. |
| PTXStream.CallbackQueuesArea | drivers/ptx-jni/src/main/cpp/source/PTXStream.cpp:175-178 | That callback firing moves area 0 to the free queue and ends its loan. |
| PTXStream.SecondWriteGrowsArea | drivers/ptx-jni/src/main/cpp/source/PTXStream.cpp:141-155 | A 2048-byte write then takes area 0 from the queue and grows it to exactly 2048 bytes without a new allocation. |
| OCLKernelScheduler.AddLong | drivers/opencl/src/main/java/uk/ac/manchester/tornado/drivers/opencl/OCLKernelScheduler.java:61 | Java `long` addition: the exact sum when it fits, and always congruent to it modulo 2^64. |
| OCLKernelScheduler.CheckLocalWorkGroupFitsOnDevice | drivers/opencl/src/main/java/uk/ac/manchester/tornado/drivers/opencl/OCLKernelScheduler.java:81-93 | The grid's local size becomes null iff it was non-null and failed the device check; a surviving local size is the user's and fits; nothing else in the grid or metadata changes. |
| OCLKernelScheduler.CheckLocalWorkGroupFitsIsIdempotent | drivers/opencl/src/main/java/uk/ac/manchester/tornado/drivers/opencl/OCLKernelScheduler.java:81-93 | Checking an already checked grid changes nothing. |
| OCLKernelScheduler.ResolveGeometry | drivers/opencl/src/main/java/uk/ac/manchester/tornado/drivers/opencl/OCLKernelScheduler.java:97-106 | Without a grid: `calculateGlobalWork` runs iff global work is undefined, then `calculateLocalWork` iff local work is still undefined, never the fit check. Only the geometry changes: it is `calculateLocalWork`'s result when that ran, otherwise `calculateGlobalWork`'s when that ran, and fully defined metadata is untouched. With a grid: only the fit check runs. |
| OCLKernelScheduler.ResolvedGeometryNeedsNoRecalculation | drivers/opencl/src/main/java/uk/ac/manchester/tornado/drivers/opencl/OCLKernelScheduler.java:97-104 | Once a resolution leaves both works defined, resolving again calls no calculator. |
| OCLKernelScheduler.Launch | drivers/opencl/src/main/java/uk/ac/manchester/tornado/drivers/opencl/OCLKernelScheduler.java:67-79 | With a grid, exactly its dimension, offset, global and local arrays are enqueued; without, the metadata's geometry, with a null local size iff the driver schedules or none is set; the enqueue's event id is returned. |
| OCLKernelScheduler.LaunchWithGridIgnoresGeometry | drivers/opencl/src/main/java/uk/ac/manchester/tornado/drivers/opencl/OCLKernelScheduler.java:68-73 | With a WorkerGrid the metadata's own geometry never reaches the device. |
| OCLKernelScheduler.UpdateProfiler | drivers/opencl/src/main/java/uk/ac/manchester/tornado/drivers/opencl/OCLKernelScheduler.java:55-65 | Profiling on: the total grows by the event's execution time (as a `long`) and the task's timer is set to it, other tasks' timers unchanged. Off: no timer changes. |
| OCLKernelScheduler.Submit | drivers/opencl/src/main/java/uk/ac/manchester/tornado/drivers/opencl/OCLKernelScheduler.java:95-114 | The metadata launched is the resolved metadata, and the request is `launch`'s for it; the launch's own event is returned. A grid is launched as given except that an illegal local size becomes null; without a grid the resolved dimensions, offset, global size and (unless the driver schedules) local size are launched; the profiler records that event. The profiler changes exactly as `updateProfiler` for that event: other tasks' timers are kept and the total wraps as a `long`. |
| OCLKernelScheduler.SubmitLaunchesCalculatedGeometry | drivers/opencl/src/main/java/uk/ac/manchester/tornado/drivers/opencl/OCLKernelScheduler.java:97-111 | With no grid and nothing defined, the device receives exactly the geometry `calculateLocalWork` computes on the metadata `calculateGlobalWork` produced. |
| OCLKernelScheduler.SubmitWithoutWaitList | drivers/opencl/src/main/java/uk/ac/manchester/tornado/drivers/opencl/OCLKernelScheduler.java:51-53 | The three-argument overload is `submit` with a null wait list: the same resolution, the launch of the resolved metadata for the same kernel with no wait list, that launch's event, and exactly `updateProfiler`'s change to the profiler. |
| OCLKernelScheduler.IllegalUserLocalSizeNeverLaunched | drivers/opencl/src/main/java/uk/ac/manchester/tornado/drivers/opencl/OCLKernelScheduler.java:68-106 | A local size that reaches the device from a WorkerGrid always passed the grid-dimension check. |
| OCLMemorySpace.GetBase | drivers/opencl/src/main/java/tornado/drivers/opencl/graal/meta/OCLMemorySpace.java:28-42 | `shouldNotReachHere` is reached exactly for instances other than the five constants. |
| OCLMemorySpace.DeclaredBases | drivers/opencl/src/main/java/tornado/drivers/opencl/graal/meta/OCLMemorySpace.java:30-37 | GLOBAL and HEAP map to `hp`, LOCAL to `lp`, CONSTANT to `cp`, PRIVATE to `pp`. |
| OCLMemorySpace.GetBaseTotalOnDeclared | drivers/opencl/src/main/java/tornado/drivers/opencl/graal/meta/OCLMemorySpace.java:13-42 | No declared constant reaches `shouldNotReachHere`. |
| OCLMemorySpace.BaseIgnoresName | drivers/opencl/src/main/java/tornado/drivers/opencl/graal/meta/OCLMemorySpace.java:28-42 | Two constructible spaces with the same reference identity have the same base whatever their names; a separate instance named "heap" is not HEAP and reaches `shouldNotReachHere`. |
| OCLMemorySpace.DeclaredAreConstructed | drivers/opencl/src/main/java/tornado/drivers/opencl/graal/meta/OCLMemorySpace.java:13-18 | Each of the five constants carries the name it is constructed with. |
| OCLMemorySpace.NamesOfDeclared | drivers/opencl/src/main/java/tornado/drivers/opencl/graal/meta/OCLMemorySpace.java:13-46 | `name()`, modelled by `OCLMemorySpace.Name`, returns the construction name; HEAP's is "heap", the others carry their modifier. |

## Left out

- JNI marshalling and the CUDA copies, event creation and recording, event
  waits, `cuLaunchKernel`, stream creation and synchronisation and
  `cuEventCreateAndRecord`: foreign I/O with no effect on the pool. The byte
  contents of staging areas are not modelled, so a write-then-read round trip
  of data is not stated.
- `transferFromDeviceToHostAsync`: it bypasses the pool entirely.
- What follows a NULL staging area: `get_first_free_staging_area` returns NULL
  when pinning fails, and the transfers dereference it unchecked
  (`PTXStream.cpp:218`, `:404-405`, `:430-431`). That is undefined behaviour,
  which the transfer functions report as the outcome `NullStagingArea`.
- PTXStream.Step and PTXStream.Run: they continue after a `NullStagingArea`
  with the pool the failed acquisition left. The source would dereference
  NULL there, so those traces are extra ones the program never reaches; the
  invariant holds on them too.
- The outcome of the `cuMemFreeHost` in `free_staging_area_list`
  (`PTXStream.cpp:186`): the record is dropped whatever it returns, as
  `:191-193` do, so the model has no outcome for it.
- The status `cuDestroyStream` returns: it combines the stream status with
  `free_staging_area_list`'s, which is uninitialised when the list is empty.
- `malloc` of list and queue nodes is taken to succeed; the record a failed
  creation leaks is not tracked.
- Concurrency: the stream callback runs on a driver thread with no locking in
  the source; here its firing is a sequential step.
- `calculateGlobalWork`, `calculateLocalWork`, OCLGridInfo, the device's
  enqueue and event timing are uninterpreted. The calculators are modelled as
  producing the metadata's new geometry only; they cannot change the task's
  WorkerGrid, id or scheduling flag.
- `printThreadDims`, the debug flag's effect and the console messages: output
  only. The unused `min`/`max` fields of the scheduler.
- `TornadoOptions.isProfilerEnabled()` is a parameter; TornadoProfiler is not
  part of this model, so its two timers are stored values.
- OCLAssemblerConstants is not part of this model; the memory modifiers that
  name four of the constants are a parameter.
- PTXStream.TransferFromHostToDeviceBlocking: its own contract states only that the area stays lent out; the full effect is stated by `PTXStream.StageHostToDevice`, which it calls.
- PTXStream.TransferFromHostToDeviceAsync: likewise, the full effect is stated by `PTXStream.StageHostToDevice`.

## Findings

| source | as written | input that shows it | evidently intended | confidence | as-written member | corrected member |
|---|---|---|---|---|---|---|
| drivers/ptx-jni/src/main/cpp/source/PTXStream.cpp:162-196 | Only the first area ever handed out becomes `head`; later areas are never linked, so stream teardown frees the first area only. | Two host-to-device writes before either callback fires, both callbacks, then `cuDestroyStream`: area 1 keeps its pinned memory with nothing pointing to it. | The list holds every pinned region and teardown frees them all. | medium, not executed | PTXStream.TeardownLeakWitness | PTXStream.DestroyStreamReleasingIdle |
| drivers/ptx-jni/src/main/cpp/source/PTXStream.cpp:665-676 | Teardown frees the `head` area even while a transfer still holds it; the pool is global, so destroying any stream does this. | One host-to-device write whose callback has not fired, then `cuDestroyStream`: the area is freed, and the pending callback later queues the freed record. | An area lent to an unfinished transfer is not freed until its callback returns it. | medium, not executed | PTXStream.TeardownFreesLentHeadWitness | PTXStream.DestroyStreamReleasingIdle |

The request sequence model (`PTXStream.Step`, `PTXStream.Run`) uses the
corrected teardown.

=== FILE: kernel_scheduler.dfy ===
/** The dispatch decisions of the OpenCL kernel scheduler.

    A kernel submission first resolves its geometry, either by running the
    scheduler's work calculators for whatever the task metadata does not yet
    define, or by adopting the user's WorkerGrid after checking that its local
    size fits the device. It then enqueues an NDRange launch and, when the
    profiler is on, records the launch's execution time.

    The calculators, the device's grid-dimension check, the enqueue call and
    the event's execution time are not shown in the source; they are
    function-valued parameters here. Nothing is assumed about their results,
    except that a calculator may only replace the metadata's geometry. */
module OCLKernelScheduler {
  import opened Wrappers

  const LONG_MIN: int := -0x8000_0000_0000_0000
  const LONG_MAX: int := 0x7fff_ffff_ffff_ffff
  const LONG_RANGE: int := 0x1_0000_0000_0000_0000

  /** A Java `long`. */
  type Long = x: int | LONG_MIN <= x <= LONG_MAX

  /** Java `long` addition, which wraps around on overflow. */
  function AddLong(a: Long, b: Long): (r: Long)
    ensures LONG_MIN <= a + b <= LONG_MAX ==> r == a + b
    ensures (r - (a + b)) % LONG_RANGE == 0
  {
    var s := a + b;
    if s > LONG_MAX then s - LONG_RANGE
    else if s < LONG_MIN then s + LONG_RANGE
    else s
  }

  type TaskId = string

  /** Stands for an OCLKernel handle. */
  type KernelId = nat

  /** The geometry a TaskMetaData holds: dimensions, global offset, global and
      local work sizes (a null local size is `None`), and whether global and
      local work have been defined. */
  datatype Geometry = Geometry(
    dims: nat,
    offset: seq<int>,
    globalWork: seq<int>,
    localWork: Option<seq<int>>,
    globalWorkDefined: bool,
    localWorkDefined: bool)

  /** A user-supplied WorkerGrid. */
  datatype WorkerGrid = WorkerGrid(
    dimension: nat,
    globalOffset: seq<int>,
    globalWork: seq<int>,
    localWork: Option<seq<int>>)

  /** The parts of TaskMetaData the scheduler reads: the task's id, its
      geometry, the WorkerGrid registered for the id (if any), whether the
      OpenCL driver should choose the local size, and the debug flag. */
  datatype TaskMeta = TaskMeta(
    id: TaskId,
    geometry: Geometry,
    workerGrid: Option<WorkerGrid>,
    useDriverScheduling: bool,
    debug: bool)

  /** The two timers the scheduler writes: TOTAL_KERNEL_TIME, and
      TASK_KERNEL_TIME per task id. */
  datatype Profiler = Profiler(totalKernelTime: Long, taskKernelTime: map<TaskId, Long>)

  /** The arguments of one `enqueueNDRangeKernel` call; a null wait list is `None`. */
  datatype NDRange = NDRange(
    kernel: KernelId,
    dims: nat,
    offset: seq<int>,
    globalWork: seq<int>,
    localWork: Option<seq<int>>,
    waitEvents: Option<seq<int>>)

  /** The device context: whether a local size passes OCLGridInfo's
      `checkGridDimensions` on this device, the event id `enqueueNDRangeKernel`
      returns, and an event's execution time once it has completed. */
  datatype DeviceContext = DeviceContext(
    gridFits: seq<int> -> bool,
    enqueueNDRangeKernel: NDRange -> int,
    executionTime: int -> Long)

  /** The abstract `calculateGlobalWork` and `calculateLocalWork` of a
      concrete scheduler; each yields the metadata's new geometry. */
  datatype Calculators = Calculators(
    calculateGlobalWork: (TaskMeta, int) -> Geometry,
    calculateLocalWork: TaskMeta -> Geometry)

  /** The geometry steps `submit` can take, in the order it takes them. */
  datatype GeometryStep = CalculateGlobalWork | CalculateLocalWork | CheckLocalWorkGroupFits

  datatype Resolution = Resolution(meta: TaskMeta, steps: seq<GeometryStep>)

  datatype Launched = Launched(event: int, request: NDRange)

  datatype Submitted = Submitted(event: int, meta: TaskMeta, request: NDRange, steps: seq<GeometryStep>, profiler: Profiler)

  /** `checkLocalWorkGroupFitsOnDevice`: a non-null user local size that
      fails the device's grid-dimension check is set to null. */
  function CheckLocalWorkGroupFitsOnDevice(dev: DeviceContext, meta: TaskMeta): (m: TaskMeta)
    requires meta.workerGrid.Some?
    ensures m.workerGrid.Some?
    ensures var before := meta.workerGrid.value.localWork;
      m.workerGrid.value.localWork.None? <==> before.None? || !dev.gridFits(before.value)
    ensures m.workerGrid.value.localWork.Some? ==>
      m.workerGrid.value.localWork == meta.workerGrid.value.localWork && dev.gridFits(m.workerGrid.value.localWork.value)
    ensures m.workerGrid.value == meta.workerGrid.value.(localWork := m.workerGrid.value.localWork)
    ensures m == meta.(workerGrid := m.workerGrid)
  {
    var grid := meta.workerGrid.value;
    match grid.localWork
    case None => meta
    case Some(local) =>
      if dev.gridFits(local) then meta
      else meta.(workerGrid := Some(grid.(localWork := None)))
  }

  /** The geometry the metadata has once global work is resolved. */
  function AfterGlobalWork(sched: Calculators, meta: TaskMeta, batchThreads: int): TaskMeta
  {
    if meta.geometry.globalWorkDefined then meta
    else meta.(geometry := sched.calculateGlobalWork(meta, batchThreads))
  }

  /** The first half of `submit`: without a WorkerGrid, compute whichever of
      global and local work is undefined (global first); with one, only check
      that its local size fits the device. */
  function ResolveGeometry(sched: Calculators, dev: DeviceContext, meta: TaskMeta, batchThreads: int): (r: Resolution)
    ensures meta.workerGrid.None? ==>
      && (CalculateGlobalWork in r.steps <==> !meta.geometry.globalWorkDefined)
      && (CalculateLocalWork in r.steps <==> !AfterGlobalWork(sched, meta, batchThreads).geometry.localWorkDefined)
      && CheckLocalWorkGroupFits !in r.steps
      && r.meta.workerGrid.None?
      && (|r.steps| == 2 ==> r.steps == [CalculateGlobalWork, CalculateLocalWork])
      // The geometry is whatever the last calculator to run produced
      && r.meta == meta.(geometry := r.meta.geometry)
      && (CalculateLocalWork in r.steps ==>
            r.meta.geometry == sched.calculateLocalWork(AfterGlobalWork(sched, meta, batchThreads)))
      && (CalculateGlobalWork in r.steps && CalculateLocalWork !in r.steps ==>
            r.meta.geometry == sched.calculateGlobalWork(meta, batchThreads))
      && (r.steps == [] ==> r.meta == meta)
    ensures meta.workerGrid.None? && meta.geometry.globalWorkDefined && meta.geometry.localWorkDefined ==>
      r == Resolution(meta, [])
    ensures meta.workerGrid.Some? ==>
      r.steps == [CheckLocalWorkGroupFits] && r.meta == CheckLocalWorkGroupFitsOnDevice(dev, meta)
    ensures r.meta.id == meta.id && r.meta.useDriverScheduling == meta.useDriverScheduling
  {
    if meta.workerGrid.None? then
      var m1 := AfterGlobalWork(sched, meta, batchThreads);
      var s1 := if meta.geometry.globalWorkDefined then [] else [CalculateGlobalWork];
      if m1.geometry.localWorkDefined then Resolution(m1, s1)
      else Resolution(m1.(geometry := sched.calculateLocalWork(m1)), s1 + [CalculateLocalWork])
    else
      Resolution(CheckLocalWorkGroupFitsOnDevice(dev, meta), [CheckLocalWorkGroupFits])
  }

  /** `launch`: a WorkerGrid's dimension, offset, global and local sizes go to
      the device as they are; otherwise the metadata's, with the local size
      replaced by null when the driver should choose it. */
  function Launch(dev: DeviceContext, kernel: KernelId, meta: TaskMeta, waitEvents: Option<seq<int>>): (r: Launched)
    ensures r.event == dev.enqueueNDRangeKernel(r.request)
    ensures r.request.kernel == kernel && r.request.waitEvents == waitEvents
    ensures meta.workerGrid.Some? ==>
      var g := meta.workerGrid.value;
      r.request == NDRange(kernel, g.dimension, g.globalOffset, g.globalWork, g.localWork, waitEvents)
    ensures meta.workerGrid.None? ==>
      && r.request.dims == meta.geometry.dims
      && r.request.offset == meta.geometry.offset
      && r.request.globalWork == meta.geometry.globalWork
      && (r.request.localWork.None? <==> meta.useDriverScheduling || meta.geometry.localWork.None?)
      && (!meta.useDriverScheduling ==> r.request.localWork == meta.geometry.localWork)
  {
    var request :=
      match meta.workerGrid
      case Some(g) => NDRange(kernel, g.dimension, g.globalOffset, g.globalWork, g.localWork, waitEvents)
      case None =>
        var geo := meta.geometry;
        NDRange(kernel, geo.dims, geo.offset, geo.globalWork, if meta.useDriverScheduling then None else geo.localWork, waitEvents);
    Launched(dev.enqueueNDRangeKernel(request), request)
  }

  /** `updateProfiler`: with the profiler on, TOTAL_KERNEL_TIME grows by the
      event's execution time (as a Java `long`) and the task's
      TASK_KERNEL_TIME is set to it; with it off nothing changes. */
  function UpdateProfiler(profilerEnabled: bool, dev: DeviceContext, taskEvent: int, meta: TaskMeta, prof: Profiler): (r: Profiler)
    ensures !profilerEnabled ==> r == prof
    ensures profilerEnabled ==>
      var t := dev.executionTime(taskEvent);
      && (LONG_MIN <= prof.totalKernelTime + t <= LONG_MAX ==> r.totalKernelTime == prof.totalKernelTime + t)
      && (r.totalKernelTime - (prof.totalKernelTime + t)) % LONG_RANGE == 0
      && meta.id in r.taskKernelTime && r.taskKernelTime[meta.id] == t
      && (forall id | id in prof.taskKernelTime && id != meta.id :: id in r.taskKernelTime && r.taskKernelTime[id] == prof.taskKernelTime[id])
      && r.taskKernelTime.Keys == prof.taskKernelTime.Keys + {meta.id}
  {
    if profilerEnabled then
      var t := dev.executionTime(taskEvent);
      Profiler(AddLong(prof.totalKernelTime, t), prof.taskKernelTime[meta.id := t])
    else prof
  }

  /** `submit` with a wait list: resolve the geometry, launch, update the
      profiler, and return the launch's event. */
  function Submit(
    sched: Calculators, dev: DeviceContext, kernel: KernelId, meta: TaskMeta,
    waitEvents: Option<seq<int>>, batchThreads: int, profilerEnabled: bool, prof: Profiler): (r: Submitted)
    ensures r.event == dev.enqueueNDRangeKernel(r.request)
    ensures r.request.kernel == kernel && r.request.waitEvents == waitEvents
    // With a WorkerGrid: the grid is launched as is, except for an illegal local size
    ensures meta.workerGrid.Some? ==>
      var g := meta.workerGrid.value;
      && r.steps == [CheckLocalWorkGroupFits]
      && r.request.dims == g.dimension && r.request.offset == g.globalOffset && r.request.globalWork == g.globalWork
      && (r.request.localWork.None? <==> g.localWork.None? || !dev.gridFits(g.localWork.value))
      && (r.request.localWork.Some? ==> r.request.localWork == g.localWork && dev.gridFits(r.request.localWork.value))
    // The metadata and steps are the resolution's, and the launch is of that metadata
    ensures var resolved := ResolveGeometry(sched, dev, meta, batchThreads);
      r.meta == resolved.meta && r.steps == resolved.steps
    ensures r.request == Launch(dev, kernel, r.meta, waitEvents).request
    // Without one: the resolved geometry, and a null local size iff the driver schedules or none was resolved
    ensures meta.workerGrid.None? ==>
      && CheckLocalWorkGroupFits !in r.steps
      && r.request.dims == r.meta.geometry.dims
      && r.request.offset == r.meta.geometry.offset
      && r.request.globalWork == r.meta.geometry.globalWork
      && (r.request.localWork.None? <==> meta.useDriverScheduling || r.meta.geometry.localWork.None?)
      && (!meta.useDriverScheduling ==> r.request.localWork == r.meta.geometry.localWork)
    // The profiler records this launch's event and nothing else
    ensures r.profiler == UpdateProfiler(profilerEnabled, dev, r.event, r.meta, prof)
    ensures !profilerEnabled ==> r.profiler == prof
    ensures profilerEnabled ==>
      && meta.id in r.profiler.taskKernelTime
      && r.profiler.taskKernelTime[meta.id] == dev.executionTime(r.event)
      && (LONG_MIN <= prof.totalKernelTime + dev.executionTime(r.event) <= LONG_MAX ==>
            r.profiler.totalKernelTime == prof.totalKernelTime + dev.executionTime(r.event))
  {
    var resolved := ResolveGeometry(sched, dev, meta, batchThreads);
    var launched := Launch(dev, kernel, resolved.meta, waitEvents);
    var profiler := UpdateProfiler(profilerEnabled, dev, launched.event, resolved.meta, prof);
    Submitted(launched.event, resolved.meta, launched.request, resolved.steps, profiler)
  }

  /** The three-argument `submit`: `submit` with a null wait list. */
  function SubmitWithoutWaitList(
    sched: Calculators, dev: DeviceContext, kernel: KernelId, meta: TaskMeta,
    batchThreads: int, profilerEnabled: bool, prof: Profiler): (r: Submitted)
    ensures r.request.waitEvents.None? && r.request.kernel == kernel
    ensures r.event == dev.enqueueNDRangeKernel(r.request)
    ensures var resolved := ResolveGeometry(sched, dev, meta, batchThreads);
      r.meta == resolved.meta && r.steps == resolved.steps
    ensures r.request == Launch(dev, kernel, r.meta, None).request
    ensures r.profiler == UpdateProfiler(profilerEnabled, dev, r.event, r.meta, prof)
    ensures !profilerEnabled ==> r.profiler == prof
    ensures profilerEnabled ==>
      && meta.id in r.profiler.taskKernelTime
      && r.profiler.taskKernelTime[meta.id] == dev.executionTime(r.event)
      && (LONG_MIN <= prof.totalKernelTime + dev.executionTime(r.event) <= LONG_MAX ==>
            r.profiler.totalKernelTime == prof.totalKernelTime + dev.executionTime(r.event))
  {
    Submit(sched, dev, kernel, meta, None, batchThreads, profilerEnabled, prof)
  }

  /** A launch never receives a user local size the device rejects: whatever
      local size reaches `enqueueNDRangeKernel` from a WorkerGrid passed the
      grid-dimension check. */
  lemma IllegalUserLocalSizeNeverLaunched(
    sched: Calculators, dev: DeviceContext, kernel: KernelId, meta: TaskMeta,
    waitEvents: Option<seq<int>>, batchThreads: int, profilerEnabled: bool, prof: Profiler)
    requires meta.workerGrid.Some?
    ensures var r := Submit(sched, dev, kernel, meta, waitEvents, batchThreads, profilerEnabled, prof);
      r.request.localWork.Some? ==> dev.gridFits(r.request.localWork.value)
  {
  }

  /** Without a WorkerGrid and with nothing defined yet, the launch carries
      exactly the geometry the calculators compute: global work first, then
      local work on the metadata global work produced. */
  lemma SubmitLaunchesCalculatedGeometry(
    sched: Calculators, dev: DeviceContext, kernel: KernelId, meta: TaskMeta,
    waitEvents: Option<seq<int>>, batchThreads: int, profilerEnabled: bool, prof: Profiler)
    requires meta.workerGrid.None?
    requires !meta.geometry.globalWorkDefined
    requires !sched.calculateGlobalWork(meta, batchThreads).localWorkDefined
    ensures var r := Submit(sched, dev, kernel, meta, waitEvents, batchThreads, profilerEnabled, prof);
      var g := sched.calculateLocalWork(meta.(geometry := sched.calculateGlobalWork(meta, batchThreads)));
      && r.steps == [CalculateGlobalWork, CalculateLocalWork]
      && r.request.dims == g.dims && r.request.offset == g.offset && r.request.globalWork == g.globalWork
      && r.request.localWork == (if meta.useDriverScheduling then None else g.localWork)
  {
  }

  /** With a WorkerGrid the metadata's own geometry never reaches the device:
      replacing it changes neither the launch nor its event. */
  lemma LaunchWithGridIgnoresGeometry(dev: DeviceContext, kernel: KernelId, meta: TaskMeta, g: Geometry, waitEvents: Option<seq<int>>)
    requires meta.workerGrid.Some?
    ensures Launch(dev, kernel, meta.(geometry := g), waitEvents) == Launch(dev, kernel, meta, waitEvents)
  {
  }

  /** The geometry check is idempotent: checking an already checked grid
      changes nothing. */
  lemma CheckLocalWorkGroupFitsIsIdempotent(dev: DeviceContext, meta: TaskMeta)
    requires meta.workerGrid.Some?
    ensures var m := CheckLocalWorkGroupFitsOnDevice(dev, meta);
      CheckLocalWorkGroupFitsOnDevice(dev, m) == m
  {
  }

  /** Resolving a second time calls no calculator when the first resolution
      left global and local work defined. */
  lemma ResolvedGeometryNeedsNoRecalculation(sched: Calculators, dev: DeviceContext, meta: TaskMeta, batchThreads: int)
    requires meta.workerGrid.None?
    requires var r := ResolveGeometry(sched, dev, meta, batchThreads);
      r.meta.geometry.globalWorkDefined && r.meta.geometry.localWorkDefined
    ensures var r := ResolveGeometry(sched, dev, meta, batchThreads);
      ResolveGeometry(sched, dev, r.meta, batchThreads).steps == []
  {
  }
}

=== FILE: memory_space.dfy ===
/** The OpenCL memory spaces of the Graal backend and the base register each
    one is addressed from.

    Java compares memory spaces by reference (`this == GLOBAL`), so a space
    carries an identity separate from its name: the five shared constants
    have their own identities, and any other instance built through the
    protected constructor is `OtherInstance`. The names of four constants
    are the memory modifiers of OCLAssemblerConstants; that class is not part
    of this model, so the modifiers are a parameter. */
module OCLMemorySpace {
  import opened Wrappers

  datatype Identity =
    | GlobalInstance
    | LocalInstance
    | PrivateInstance
    | ConstantInstance
    | HeapInstance
    | OtherInstance(serial: nat)

  datatype MemorySpace = MemorySpace(identity: Identity, name: string)

  /** The OCLArchitecture memory bases `hp`, `lp`, `cp` and `pp`. */
  datatype MemoryBase = Hp | Lp | Cp | Pp

  /** `shouldNotReachHere`, an internal error. */
  datatype InternalError = ShouldNotReachHere

  /** The memory modifiers of OCLAssemblerConstants the constants are named by. */
  datatype Modifiers = Modifiers(globalMem: string, localMem: string, privateMem: string, constantMem: string)

  function Global(k: Modifiers): MemorySpace { MemorySpace(GlobalInstance, k.globalMem) }

  function Local(k: Modifiers): MemorySpace { MemorySpace(LocalInstance, k.localMem) }

  function Private(k: Modifiers): MemorySpace { MemorySpace(PrivateInstance, k.privateMem) }

  function Constant(k: Modifiers): MemorySpace { MemorySpace(ConstantInstance, k.constantMem) }

  const Heap: MemorySpace := MemorySpace(HeapInstance, "heap")

  /** The five constants the class declares. */
  function Declared(k: Modifiers): seq<MemorySpace>
  {
    [Global(k), Local(k), Private(k), Constant(k), Heap]
  }

  /** The values a Java object can have: each of the five constants carries
      the name it was constructed with, and only other instances are free to
      carry any name. */
  predicate Constructed(k: Modifiers, s: MemorySpace)
  {
    match s.identity
    case GlobalInstance => s.name == k.globalMem
    case LocalInstance => s.name == k.localMem
    case PrivateInstance => s.name == k.privateMem
    case ConstantInstance => s.name == k.constantMem
    case HeapInstance => s.name == "heap"
    case OtherInstance(_) => true
  }

  /** `getBase`: the base register of a memory space; any instance other
      than the five constants reaches `shouldNotReachHere`. */
  function GetBase(s: MemorySpace): (r: Result<MemoryBase, InternalError>)
    ensures r.Failure? <==> s.identity.OtherInstance?
  {
    match s.identity
    case GlobalInstance => Success(Hp)
    case HeapInstance => Success(Hp)
    case LocalInstance => Success(Lp)
    case ConstantInstance => Success(Cp)
    case PrivateInstance => Success(Pp)
    case OtherInstance(_) => Failure(ShouldNotReachHere)
  }

  /** `name()`: the name given at construction. */
  function Name(s: MemorySpace): string
  {
    s.name
  }

  /** Each declared constant maps to its base: GLOBAL and HEAP share `hp`,
      LOCAL is `lp`, CONSTANT is `cp`, PRIVATE is `pp`. */
  lemma DeclaredBases(k: Modifiers)
    ensures GetBase(Global(k)) == Success(Hp) && GetBase(Heap) == Success(Hp)
    ensures GetBase(Local(k)) == Success(Lp)
    ensures GetBase(Constant(k)) == Success(Cp)
    ensures GetBase(Private(k)) == Success(Pp)
  {
  }

  /** `getBase` is total over the declared constants: none of them reaches
      `shouldNotReachHere`. */
  lemma GetBaseTotalOnDeclared(k: Modifiers)
    ensures forall i | 0 <= i < |Declared(k)| :: GetBase(Declared(k)[i]).Success?
  {
  }

  /** The base depends on identity alone: two constructible spaces with the
      same identity have the same base whatever their names, while an
      instance of its own named "heap" is not HEAP and has no base. */
  lemma BaseIgnoresName(k: Modifiers, s: MemorySpace, t: MemorySpace)
    requires Constructed(k, s) && Constructed(k, t) && s.identity == t.identity
    ensures GetBase(s) == GetBase(t)
    ensures Constructed(k, MemorySpace(OtherInstance(0), "heap"))
    ensures GetBase(MemorySpace(OtherInstance(0), "heap")) != GetBase(Heap)
  {
  }

  /** The five declared constants are constructible values. */
  lemma DeclaredAreConstructed(k: Modifiers)
    ensures forall i | 0 <= i < |Declared(k)| :: Constructed(k, Declared(k)[i])
  {
  }

  /** `name()` returns the construction name; HEAP's is "heap", and the other
      constants carry their modifier. */
  lemma NamesOfDeclared(k: Modifiers, identity: Identity, name: string)
    requires Constructed(k, MemorySpace(identity, name))
    ensures Name(MemorySpace(identity, name)) == name
    ensures Name(Heap) == "heap"
    ensures Name(Global(k)) == k.globalMem && Name(Local(k)) == k.localMem
    ensures Name(Private(k)) == k.privateMem && Name(Constant(k)) == k.constantMem
  {
  }
}

=== FILE: ptx_stream.dfy ===
/** How the PTX stream's transfers and stream teardown use the staging pool.

    Only the pool transitions are modelled: the copies, event recording and
    JNI array access of a transfer are foreign calls whose effect on the pool
    is nil. A host-to-device transfer hands its area to a stream callback that
    fires later; that firing is the explicit step `StreamCallback`. */
module PTXStream {
  import opened Wrappers
  import opened StagingPool

  const TWO_TO_64: int := 0x1_0000_0000_0000_0000

  /** The implicit conversion of a Java `long` length to `size_t` when it is
      passed to `get_first_free_staging_area`: modulo 2^64. */
  function SizeT(length: int): (s: nat)
    ensures s < TWO_TO_64
    ensures 0 <= length < TWO_TO_64 ==> s == length
    ensures -TWO_TO_64 <= length < 0 ==> s == length + TWO_TO_64
  {
    length % TWO_TO_64
  }

  /** When `get_first_free_staging_area` returns NULL: a CUDA call on the
      create path or on the grow path failed. */
  predicate AcquireFails(p: Pool, size: nat, cuda: CudaOutcome)
    requires WellFormed(p)
  {
    if p.queue == [] then !cuda.allocHostOk
    else p.areas[p.queue[0]].length < size && !(cuda.freeHostOk && cuda.allocHostOk)
  }

  /** The free queue with its front removed, which an acquisition leaves behind. */
  function QueueAfterAcquire(p: Pool): seq<AreaId>
  {
    if p.queue == [] then [] else p.queue[1..]
  }

  /** A transfer either runs through a staging area, or meets a NULL staging
      area. The source does not check for NULL: it goes on to dereference the
      pointer, so `NullStagingArea` marks undefined behaviour, not a reported
      error. */
  datatype TransferOutcome =
    | Issued(pool: Pool, area: AreaId)
    | NullStagingArea(pool: Pool)

  /** `transferFromDeviceToHostBlock`: acquires an area, copies into it on the
      stream, waits for the end event, copies it out to the Java array and
      then returns the area with `set_to_unused` synchronously. */
  function TransferFromDeviceToHostBlock(p: Pool, length: int, cuda: CudaOutcome): (r: TransferOutcome)
    requires WellFormed(p)
    ensures r.NullStagingArea? <==> AcquireFails(p, SizeT(length), cuda)
    ensures r.Issued? ==>
      && r.pool.queue == QueueAfterAcquire(p) + [r.area]
      && r.pool.inFlight == p.inFlight - {r.area}
      && r.area in r.pool.areas && r.pool.areas[r.area].length >= SizeT(length)
    ensures r.Issued? && p.queue != [] ==> r.area == p.queue[0]
    ensures r.pool.callbacks == p.callbacks - (if r.Issued? then {r.area} else {})
    // Every other record is untouched, capacity never shrinks, and `head` is assigned only while NULL
    ensures forall id | id in p.areas :: id in r.pool.areas && r.pool.areas[id].length >= p.areas[id].length
    ensures forall id | id in p.areas && (p.queue == [] || id != p.queue[0]) :: r.pool.areas[id] == p.areas[id]
    ensures p.head.Some? ==> r.pool.head == p.head
    ensures p.head.None? ==> r.pool.head == (if r.Issued? then Some(r.area) else None)
    ensures WellFormed(r.pool)
  {
    var a := GetFirstFreeStagingArea(p, SizeT(length), cuda);
    match a.area
    case None => NullStagingArea(a.pool)
    case Some(id) => Issued(SetToUnused(a.pool, id), id)
  }

  /** The pool steps common to both host-to-device transfers: acquire an area,
      fill it from the Java array, copy it to the device on the stream, and
      register `set_to_unused` as a stream callback. The area stays lent out
      until that callback fires; if registration fails it is never returned. */
  function StageHostToDevice(p: Pool, length: int, cuda: CudaOutcome): (r: TransferOutcome)
    requires WellFormed(p)
    ensures r.NullStagingArea? <==> AcquireFails(p, SizeT(length), cuda)
    ensures r.Issued? ==>
      && r.pool.queue == QueueAfterAcquire(p)
      && r.pool.inFlight == p.inFlight + {r.area}
      && r.pool.callbacks == p.callbacks + (if cuda.addCallbackOk then {r.area} else {})
      && r.area in r.pool.areas && r.pool.areas[r.area].length >= SizeT(length)
    ensures r.Issued? && p.queue != [] ==> r.area == p.queue[0]
    ensures r.NullStagingArea? ==> r.pool.inFlight == p.inFlight && r.pool.callbacks == p.callbacks
    // Every other record is untouched, capacity never shrinks, and `head` is assigned only while NULL
    ensures forall id | id in p.areas :: id in r.pool.areas && r.pool.areas[id].length >= p.areas[id].length
    ensures forall id | id in p.areas && (p.queue == [] || id != p.queue[0]) :: r.pool.areas[id] == p.areas[id]
    ensures p.head.Some? ==> r.pool.head == p.head
    ensures p.head.None? ==> r.pool.head == (if r.Issued? then Some(r.area) else None)
    ensures WellFormed(r.pool)
  {
    var a := GetFirstFreeStagingArea(p, SizeT(length), cuda);
    match a.area
    case None => NullStagingArea(a.pool)
    case Some(id) =>
      Issued(if cuda.addCallbackOk then a.pool.(callbacks := a.pool.callbacks + {id}) else a.pool, id)
  }

  /** `transferFromHostToDeviceBlocking`: despite its name, the area is
      returned only by the stream callback. */
  function TransferFromHostToDeviceBlocking(p: Pool, length: int, cuda: CudaOutcome): (r: TransferOutcome)
    requires WellFormed(p)
    ensures r.Issued? ==> r.area in r.pool.inFlight && r.pool.queue == QueueAfterAcquire(p)
  {
    StageHostToDevice(p, length, cuda)
  }

  /** `transferFromHostToDeviceAsync`: the same pool steps as the blocking
      variant; only the order of the JNI reads differs. */
  function TransferFromHostToDeviceAsync(p: Pool, length: int, cuda: CudaOutcome): (r: TransferOutcome)
    requires WellFormed(p)
    ensures r.Issued? ==> r.area in r.pool.inFlight && r.pool.queue == QueueAfterAcquire(p)
  {
    StageHostToDevice(p, length, cuda)
  }

  /** The stream callback firing for an area whose callback was registered. */
  function StreamCallback(p: Pool, area: AreaId): (q: Pool)
    requires area in p.callbacks
    ensures q.queue == p.queue + [area]
    ensures area !in q.inFlight && area !in q.callbacks
    ensures q.inFlight == p.inFlight - {area} && q.callbacks == p.callbacks - {area}
    ensures q.areas == p.areas && q.head == p.head && q.nextAddress == p.nextAddress
  {
    SetToUnused(p, area)
  }

  /** The blocking device-to-host transfer keeps the single-owner invariant:
      the area it borrows is back in the queue, once, when it returns. */
  lemma DeviceToHostBlockKeepsSingleOwner(p: Pool, length: int, cuda: CudaOutcome)
    requires Valid(p)
    ensures Valid(TransferFromDeviceToHostBlock(p, length, cuda).pool)
  {
    GetFirstFreeStagingAreaKeepsSingleOwner(p, SizeT(length), cuda);
    var a := GetFirstFreeStagingArea(p, SizeT(length), cuda);
    if a.area.Some? {
      SetToUnusedKeepsSingleOwner(a.pool, a.area.value);
    }
  }

  /** A host-to-device transfer keeps the single-owner invariant, and the area
      it lends out was lent to no other transfer and is not in the queue. */
  lemma HostToDeviceKeepsSingleOwner(p: Pool, length: int, cuda: CudaOutcome)
    requires Valid(p)
    ensures var r := StageHostToDevice(p, length, cuda);
      && Valid(r.pool)
      && (r.Issued? ==> r.area !in p.inFlight && r.area !in r.pool.queue)
  {
    GetFirstFreeStagingAreaKeepsSingleOwner(p, SizeT(length), cuda);
  }

  /** A fired callback keeps the single-owner invariant. */
  lemma StreamCallbackKeepsSingleOwner(p: Pool, area: AreaId)
    requires Valid(p) && area in p.callbacks
    ensures Valid(StreamCallback(p, area))
  {
    SetToUnusedKeepsSingleOwner(p, area);
  }

  /** Both host-to-device variants change the pool in the same way. In the
      source they differ only in when `stream_from_array` runs (before or
      after the area is acquired), and that call does not touch the pool, so
      both reduce to `StageHostToDevice`. */
  lemma HostToDeviceVariantsAgree(p: Pool, length: int, cuda: CudaOutcome)
    requires WellFormed(p)
    ensures TransferFromHostToDeviceBlocking(p, length, cuda) == TransferFromHostToDeviceAsync(p, length, cuda)
  {
  }

  /** `cuDestroyStream`, pool part: `free_queue` and then
      `free_staging_area_list`. Both global structures end empty, but only the
      `head` record is freed; loans and pending callbacks are untouched. */
  function DestroyStream(p: Pool): (q: Pool)
    requires ListWellFormed(p)
    ensures q.queue == [] && q.head.None?
    ensures q.areas == if p.head.Some? then p.areas - {p.head.value} else p.areas
    ensures q.inFlight == p.inFlight && q.callbacks == p.callbacks
  {
    FreeStagingAreaList(FreeQueue(p))
  }

  /** As written, teardown leaves every area other than `head` allocated while
      nothing points to it any more. */
  lemma DestroyStreamLeaksAllButHead(p: Pool, id: AreaId)
    requires ListWellFormed(p) && id in p.areas && p.head != Some(id)
    ensures var q := DestroyStream(p);
      && id in q.areas && q.areas[id] == p.areas[id]
      && id !in q.queue && q.head != Some(id)
  {
  }

  /** A reachable leak: two host-to-device transfers before either callback
      fires create areas 0 and 1; both callbacks fire; teardown frees area 0
      and leaves area 1 pinned and unreachable. */
  lemma TeardownLeakWitness()
    ensures var ok := CudaOutcome(true, true, true);
      var p1 := TransferFromHostToDeviceAsync(EmptyPool, 16, ok).pool;
      var p2 := TransferFromHostToDeviceAsync(p1, 16, ok).pool;
      1 in p2.callbacks && 0 in p2.callbacks &&
      var p3 := StreamCallback(StreamCallback(p2, 0), 1);
      var q := DestroyStream(p3);
      && 1 in q.areas && q.areas[1].pinned
      && 1 !in q.queue && q.head != Some(1) && 1 !in q.inFlight
  {
  }

  /** As written, teardown frees the `head` area even while a transfer still
      uses it: the pool is global, so destroying any stream does this. When
      the pending callback fires it queues a freed record. */
  lemma TeardownFreesLentHeadWitness()
    ensures var ok := CudaOutcome(true, true, true);
      var p1 := TransferFromHostToDeviceAsync(EmptyPool, 16, ok).pool;
      var q := DestroyStream(p1);
      && 0 in q.callbacks && 0 !in q.areas
      && !Valid(q)
      && StreamCallback(q, 0).queue == [0] && 0 !in StreamCallback(q, 0).areas
  {
  }

  /** Corrected teardown: empties the free queue and the tracked list and
      frees every area that is not lent out; lent areas stay allocated until
      their transfer's callback returns them. */
  function DestroyStreamReleasingIdle(p: Pool): (q: Pool)
    ensures q.queue == [] && q.head.None?
    ensures forall id | id in p.areas :: id in q.areas <==> id in p.inFlight
    ensures forall id | id in q.areas :: id in p.areas && q.areas[id] == p.areas[id]
    ensures q.inFlight == p.inFlight && q.callbacks == p.callbacks
  {
    p.(queue := [], head := None, areas := map id | id in p.areas && id in p.inFlight :: p.areas[id])
  }

  /** The corrected teardown keeps single ownership, so callbacks that fire
      after it only ever queue live records. */
  lemma DestroyStreamReleasingIdleKeepsSingleOwner(p: Pool)
    requires Valid(p)
    ensures Valid(DestroyStreamReleasingIdle(p))
  {
  }

  /** One request to the engine: a transfer, a stream callback firing, or
      stream teardown. */
  datatype Request =
    | ReadBlocking(length: int, cuda: CudaOutcome)
    | WriteBlocking(length: int, cuda: CudaOutcome)
    | WriteAsync(length: int, cuda: CudaOutcome)
    | Callback(area: AreaId)
    | Destroy

  /** Applies one request. A callback fires only if it was registered;
      teardown is the corrected one. */
  function Step(p: Pool, req: Request): (q: Pool)
    requires Valid(p)
    ensures Valid(q)
  {
    match req
    case ReadBlocking(length, cuda) =>
      DeviceToHostBlockKeepsSingleOwner(p, length, cuda);
      TransferFromDeviceToHostBlock(p, length, cuda).pool
    case WriteBlocking(length, cuda) =>
      HostToDeviceKeepsSingleOwner(p, length, cuda);
      TransferFromHostToDeviceBlocking(p, length, cuda).pool
    case WriteAsync(length, cuda) =>
      HostToDeviceKeepsSingleOwner(p, length, cuda);
      TransferFromHostToDeviceAsync(p, length, cuda).pool
    case Callback(area) =>
      if area in p.callbacks then
        StreamCallbackKeepsSingleOwner(p, area);
        StreamCallback(p, area)
      else p
    case Destroy =>
      DestroyStreamReleasingIdleKeepsSingleOwner(p);
      DestroyStreamReleasingIdle(p)
  }

  /** Applies requests in order; the single-owner invariant holds throughout. */
  function Run(p: Pool, requests: seq<Request>): (q: Pool)
    requires Valid(p)
    ensures Valid(q)
    decreases |requests|
  {
    if requests == [] then p else Run(Step(p, requests[0]), requests[1..])
  }

  /** Reuse scenario: a 1024-byte write whose callback has fired, then a
      2048-byte write, reuses the first area grown to 2048 bytes instead of
      allocating a second one. */
  lemma ReuseGrowsReleasedArea()
    ensures Valid(EmptyPool)
    ensures var ok := CudaOutcome(true, true, true);
      var q := Step(Step(Step(EmptyPool, WriteAsync(1024, ok)), Callback(0)), WriteAsync(2048, ok));
      q.areas == map[0 := Area(2048, true, None)] && q.inFlight == {0} && q.queue == [] && q.nextAddress == 1
  {
    var p1 := FirstWriteCreatesArea();
    var p2 := CallbackQueuesArea(p1);
    var p3 := SecondWriteGrowsArea(p2);
  }

  lemma FirstWriteCreatesArea() returns (p1: Pool)
    ensures Valid(EmptyPool)
    ensures p1 == Step(EmptyPool, WriteAsync(1024, CudaOutcome(true, true, true)))
    ensures p1 == Pool(map[0 := Area(1024, true, None)], [], {0}, {0}, Some(0), 1)
  {
    EmptyPoolIsValid();
    p1 := Step(EmptyPool, WriteAsync(1024, CudaOutcome(true, true, true)));
  }

  lemma CallbackQueuesArea(p1: Pool) returns (p2: Pool)
    requires p1 == Pool(map[0 := Area(1024, true, None)], [], {0}, {0}, Some(0), 1)
    ensures Valid(p1)
    ensures p2 == Step(p1, Callback(0))
    ensures p2 == Pool(map[0 := Area(1024, true, None)], [0], {}, {}, Some(0), 1)
  {
    p2 := Step(p1, Callback(0));
  }

  lemma SecondWriteGrowsArea(p2: Pool) returns (p3: Pool)
    requires p2 == Pool(map[0 := Area(1024, true, None)], [0], {}, {}, Some(0), 1)
    ensures Valid(p2)
    ensures p3 == Step(p2, WriteAsync(2048, CudaOutcome(true, true, true)))
    ensures p3 == Pool(map[0 := Area(2048, true, None)], [], {0}, {0}, Some(0), 1)
  {
    p3 := Step(p2, WriteAsync(2048, CudaOutcome(true, true, true)));
  }
}

=== FILE: staging_pool.dfy ===
/** The pinned staging-area pool of the PTX stream driver.

    The source keeps two global pointer structures: a singly linked list
    rooted at `head` (records of type StagingAreaList), meant to hold every
    pinned region but in fact only ever holding the first one handed out, and
    a FIFO of regions no longer in use (`front`/`rear`). Here the records live in an
    arena `areas` keyed by an area identifier (standing for the record's
    address), the FIFO is a sequence of identifiers, and two bookkeeping sets
    record which areas are lent to a transfer (`inFlight`) and which of those
    have a registered stream callback that will return them (`callbacks`).
    Every CUDA host-memory call on the acquisition path is an abstract outcome
    that succeeds or fails. */
module StagingPool {
  import opened Wrappers

  /** Stands for the address of a StagingAreaList record. */
  type AreaId = nat

  /** One StagingAreaList record: the byte length of its pinned region, whether
      that region is currently allocated, and the `next` link of the list. */
  datatype Area = Area(length: nat, pinned: bool, next: Option<AreaId>)

  /** The pool's whole state. `nextAddress` is an address no record has used yet,
      so a new record is never confused with an old one. */
  datatype Pool = Pool(
    areas: map<AreaId, Area>,
    queue: seq<AreaId>,
    inFlight: set<AreaId>,
    callbacks: set<AreaId>,
    head: Option<AreaId>,
    nextAddress: AreaId)

  /** The state at library load: every global pointer NULL. */
  const EmptyPool := Pool(map[], [], {}, {}, None, 0)

  /** Outcomes of the CUDA calls one pool operation or transfer makes:
      cuMemAllocHost, cuMemFreeHost and cuStreamAddCallback. */
  datatype CudaOutcome = CudaOutcome(allocHostOk: bool, freeHostOk: bool, addCallbackOk: bool)

  /** A pointer returned by a pool operation (NULL is `None`) and the pool after it. */
  datatype Acquired = Acquired(area: Option<AreaId>, pool: Pool)

  /** The tracked list is well formed: `head` names a live record and, as the
      source never assigns a `next` field other than NULL, no record is linked. */
  predicate ListWellFormed(p: Pool) {
    && (p.head.Some? ==> p.head.value in p.areas)
    && (forall id | id in p.areas :: p.areas[id].next.None?)
  }

  /** Every pointer the pool holds refers to a live record. */
  predicate WellFormed(p: Pool) {
    && ListWellFormed(p)
    && (forall i | 0 <= i < |p.queue| :: p.queue[i] in p.areas)
    && (forall id | id in p.areas :: id < p.nextAddress)
  }

  /** Single ownership: an area is queued at most once, is never both queued
      and lent to a transfer, and every queued or lent area has its pinned
      memory allocated. */
  predicate Valid(p: Pool) {
    && WellFormed(p)
    && (forall i, j | 0 <= i < j < |p.queue| :: p.queue[i] != p.queue[j])
    && (forall i | 0 <= i < |p.queue| :: p.queue[i] !in p.inFlight)
    && p.inFlight <= p.areas.Keys
    && p.callbacks <= p.inFlight
    && (forall i | 0 <= i < |p.queue| :: p.areas[p.queue[i]].pinned)
    && (forall id | id in p.inFlight :: p.areas[id].pinned)
  }

  lemma EmptyPoolIsValid()
    ensures Valid(EmptyPool)
  {
  }

  /** `enqueue`: appends a free region at the rear of the queue. */
  function Enqueue(p: Pool, region: AreaId): (q: Pool)
    ensures |q.queue| == |p.queue| + 1
    ensures q.queue[|p.queue|] == region
    ensures q.queue[..|p.queue|] == p.queue
    ensures q == p.(queue := q.queue)
  {
    p.(queue := p.queue + [region])
  }

  /** `dequeue`: removes and returns the front of the queue; NULL and no
      change when the queue is empty. */
  function Dequeue(p: Pool): (r: Acquired)
    ensures r.area.None? <==> p.queue == []
    ensures r.area.None? ==> r.pool == p
    ensures r.area.Some? ==> [r.area.value] + r.pool.queue == p.queue
    ensures r.pool == p.(queue := r.pool.queue)
  {
    if p.queue == [] then Acquired(None, p)
    else Acquired(Some(p.queue[0]), p.(queue := p.queue[1..]))
  }

  /** `free_queue`: pops nodes from the front until the queue is empty. */
  function FreeQueue(p: Pool): (q: Pool)
    ensures q == p.(queue := [])
    decreases |p.queue|
  {
    if p.queue == [] then p
    else FreeQueue(Dequeue(p).pool)
  }

  /** The regions successive `dequeue` calls return until the queue is empty. */
  function DrainQueue(p: Pool): seq<AreaId>
    decreases |p.queue|
  {
    var d := Dequeue(p);
    match d.area
    case None => []
    case Some(region) => [region] + DrainQueue(d.pool)
  }

  /** Enqueues `regions` one by one, in order. */
  function EnqueueAll(p: Pool, regions: seq<AreaId>): Pool
    decreases |regions|
  {
    if regions == [] then p else EnqueueAll(Enqueue(p, regions[0]), regions[1..])
  }

  /** Draining the queue yields exactly its contents, front first. */
  lemma {:induction false} DrainQueueIsQueueOrder(p: Pool)
    ensures DrainQueue(p) == p.queue
    decreases |p.queue|
  {
    var d := Dequeue(p);
    if d.area.Some? {
      DrainQueueIsQueueOrder(d.pool);
    }
  }

  /** Enqueuing a batch appends it behind what was already queued. */
  lemma {:induction false} EnqueueAllAppends(p: Pool, regions: seq<AreaId>)
    ensures EnqueueAll(p, regions) == p.(queue := p.queue + regions)
    decreases |regions|
  {
    if regions != [] {
      var p1 := Enqueue(p, regions[0]);
      EnqueueAllAppends(p1, regions[1..]);
      assert p.queue + [regions[0]] + regions[1..] == p.queue + regions;
    }
  }

  /** First-in, first-out reuse: after enqueuing `regions`, the dequeues return
      the regions already queued and then `regions`, in enqueue order. */
  lemma FreeRegionsAreReusedInFifoOrder(p: Pool, regions: seq<AreaId>)
    ensures DrainQueue(EnqueueAll(p, regions)) == p.queue + regions
  {
    EnqueueAllAppends(p, regions);
    DrainQueueIsQueueOrder(EnqueueAll(p, regions));
  }

  /** `check_or_init_staging_area`: a NULL area is created with exactly `size`
      bytes; an area shorter than `size` has its pinned memory freed and
      reallocated to exactly `size` bytes; a long enough area is returned as is.
      Any failed CUDA call yields NULL. A failed creation leaks its freshly
      malloc'd record, which nothing tracks, so the pool does not change. */
  function CheckOrInitStagingArea(p: Pool, size: nat, list: Option<AreaId>, cuda: CudaOutcome): (r: Acquired)
    requires list.Some? ==> list.value in p.areas
    requires forall id | id in p.areas :: id < p.nextAddress
    // Capacity never shrinks and no record is dropped
    ensures forall id | id in p.areas :: id in r.pool.areas && r.pool.areas[id].length >= p.areas[id].length
    // Create
    ensures list.None? ==> (r.area.Some? <==> cuda.allocHostOk)
    ensures list.None? && r.area.Some? ==>
      && r.area.value !in p.areas
      && r.pool.areas == p.areas[r.area.value := Area(size, true, None)]
    ensures list.None? && r.area.None? ==> r.pool == p
    // Update
    ensures list.Some? && p.areas[list.value].length < size ==>
      && (r.area.Some? <==> cuda.freeHostOk && cuda.allocHostOk)
      && (r.area.Some? ==> r.area == list && r.pool.areas[list.value] == p.areas[list.value].(length := size, pinned := true))
      && (r.area.None? && !cuda.freeHostOk ==> r.pool == p)
      && (r.area.None? && cuda.freeHostOk ==> r.pool.areas[list.value] == p.areas[list.value].(pinned := false))
    // Already large enough
    ensures list.Some? && p.areas[list.value].length >= size ==> r == Acquired(list, p)
    // Every success is long enough, and backed by pinned memory unless handed an unbacked record
    ensures r.area.Some? ==> r.area.value in r.pool.areas && r.pool.areas[r.area.value].length >= size
    ensures r.area.Some? && (list.None? || p.areas[list.value].pinned) ==> r.pool.areas[r.area.value].pinned
    // No other record changes
    ensures forall id | id in p.areas && Some(id) != list :: r.pool.areas[id] == p.areas[id]
    ensures r.pool.queue == p.queue && r.pool.inFlight == p.inFlight && r.pool.callbacks == p.callbacks
    ensures r.pool.head == p.head
    ensures forall id | id in r.pool.areas :: id < r.pool.nextAddress
  {
    match list
    case None =>
      if !cuda.allocHostOk then Acquired(None, p)
      else
        var id := p.nextAddress;
        Acquired(Some(id), p.(areas := p.areas[id := Area(size, true, None)], nextAddress := p.nextAddress + 1))
    case Some(id) =>
      var a := p.areas[id];
      if a.length < size then
        if !cuda.freeHostOk then Acquired(None, p)
        else if !cuda.allocHostOk then Acquired(None, p.(areas := p.areas[id := a.(pinned := false)]))
        else Acquired(Some(id), p.(areas := p.areas[id := a.(length := size, pinned := true)]))
      else Acquired(list, p)
  }

  /** `get_first_free_staging_area`: reuses the front of the free queue, growing
      it when it is too short, and creates a new area only when the queue is
      empty; the result becomes `head` only while `head` is NULL. The area
      handed out is lent to the caller's transfer (`inFlight`) until
      `set_to_unused` returns it. */
  function GetFirstFreeStagingArea(p: Pool, size: nat, cuda: CudaOutcome): (r: Acquired)
    requires WellFormed(p)
    // A queued area is always taken, and no new area is made then
    ensures p.queue != [] ==>
      && r.pool.queue == p.queue[1..]
      && r.pool.nextAddress == p.nextAddress
      && r.pool.areas.Keys == p.areas.Keys
      && (r.area.Some? ==> r.area.value == p.queue[0])
    ensures p.queue != [] && p.areas[p.queue[0]].length >= size ==>
      r.area == Some(p.queue[0]) && r.pool.areas == p.areas
    ensures p.queue != [] ==> forall id | id in p.areas && id != p.queue[0] :: r.pool.areas[id] == p.areas[id]
    ensures p.queue != [] && p.areas[p.queue[0]].length < size ==>
      && (r.area.Some? <==> cuda.freeHostOk && cuda.allocHostOk)
      && (r.area.Some? ==> r.pool.areas[p.queue[0]].length == size)
    // An empty queue means a new, unlinked area of exactly `size` bytes
    ensures p.queue == [] ==> (r.area.Some? <==> cuda.allocHostOk) && r.pool.queue == []
    ensures p.queue == [] && r.area.None? ==> r.pool == p
    ensures p.queue == [] && r.area.Some? ==>
      r.area.value !in p.areas && r.pool.areas == p.areas[r.area.value := Area(size, true, None)]
    // The area handed out is long enough and is now lent out
    ensures r.area.Some? ==> r.area.value in r.pool.areas && r.pool.areas[r.area.value].length >= size
    ensures r.area.Some? && (p.queue == [] || p.areas[p.queue[0]].pinned) ==> r.pool.areas[r.area.value].pinned
    ensures r.pool.inFlight == if r.area.Some? then p.inFlight + {r.area.value} else p.inFlight
    // `head` is assigned only when it was NULL
    ensures p.head.Some? ==> r.pool.head == p.head
    ensures p.head.None? ==> r.pool.head == r.area
    // Capacity never shrinks
    ensures forall id | id in p.areas :: id in r.pool.areas && r.pool.areas[id].length >= p.areas[id].length
    ensures r.pool.callbacks == p.callbacks
    ensures WellFormed(r.pool)
  {
    var d := Dequeue(p);
    var c := CheckOrInitStagingArea(d.pool, size, d.area, cuda);
    var withHead := if c.pool.head.None? then c.pool.(head := c.area) else c.pool;
    match c.area
    case None => Acquired(None, withHead)
    case Some(id) => Acquired(c.area, withHead.(inFlight := withHead.inFlight + {id}))
  }

  /** The single-owner invariant survives any step that takes the front of
      the queue (or a brand-new area when it is empty), may rewrite the
      front's record, and lends out what it took. */
  lemma TakingTheFrontKeepsSingleOwner(p: Pool, q: Pool, taken: Option<AreaId>)
    requires Valid(p) && WellFormed(q)
    requires q.queue == if p.queue == [] then [] else p.queue[1..]
    requires taken.Some? && p.queue != [] ==> taken.value == p.queue[0]
    requires taken.Some? && p.queue == [] ==> taken.value !in p.areas
    requires taken.Some? ==> taken.value in q.areas && q.areas[taken.value].pinned
    requires q.inFlight == if taken.Some? then p.inFlight + {taken.value} else p.inFlight
    requires q.callbacks == p.callbacks
    requires forall id | id in p.areas :: id in q.areas
    requires forall id | id in p.areas && (p.queue == [] || id != p.queue[0]) :: q.areas[id] == p.areas[id]
    ensures Valid(q)
  {
  }

  /** Single ownership on acquisition: the area handed out was neither lent to
      another transfer nor left in the free queue, and the pool stays valid. */
  lemma GetFirstFreeStagingAreaKeepsSingleOwner(p: Pool, size: nat, cuda: CudaOutcome)
    requires Valid(p)
    ensures var r := GetFirstFreeStagingArea(p, size, cuda);
      && Valid(r.pool)
      && (r.area.Some? ==> r.area.value !in p.inFlight && r.area.value !in r.pool.queue && r.pool.areas[r.area.value].pinned)
  {
    var r := GetFirstFreeStagingArea(p, size, cuda);
    TakingTheFrontKeepsSingleOwner(p, r.pool, r.area);
  }

  /** `set_to_unused`, the stream callback: puts an area back at the rear of
      the free queue, ending its loan. */
  function SetToUnused(p: Pool, list: AreaId): (q: Pool)
    ensures q.queue == p.queue + [list]
    ensures q.inFlight == p.inFlight - {list} && q.callbacks == p.callbacks - {list}
    ensures q.areas == p.areas && q.head == p.head && q.nextAddress == p.nextAddress
  {
    Enqueue(p, list).(inFlight := p.inFlight - {list}, callbacks := p.callbacks - {list})
  }

  /** Returning a lent area keeps single ownership; returning one that is not
      lent out can queue it twice. */
  lemma SetToUnusedKeepsSingleOwner(p: Pool, list: AreaId)
    requires Valid(p) && list in p.inFlight
    ensures Valid(SetToUnused(p, list))
  {
  }

  /** `free_staging_area_list`: walks the tracked list from `head`, freeing
      each record and its pinned memory, and leaves `head` NULL. Since no
      record is ever linked, only the `head` record is freed. */
  function FreeStagingAreaList(p: Pool): (q: Pool)
    requires ListWellFormed(p)
    ensures q.head.None?
    ensures q.areas == if p.head.Some? then p.areas - {p.head.value} else p.areas
    ensures q == p.(areas := q.areas, head := None)
    decreases |p.areas|
  {
    match p.head
    case None => p
    case Some(h) =>
      FreeStagingAreaList(p.(areas := p.areas - {h}, head := p.areas[h].next))
  }
}

=== FILE: wrappers.dfy ===
/** Failure-compatible wrappers: `Option` stands for a nullable pointer or
    reference, `Result` for a call that either yields a value or fails. */
module Wrappers {

  /** A nullable value: `None` is the source's NULL / null. */
  datatype Option<+T> = None | Some(value: T)

  /** The outcome of a call that may fail with an error value. */
  datatype Result<+R, +E> = Success(value: R) | Failure(error: E)
}
